=== FILE: README.md ===
# Tick Bombing warp timing, in Dafny

Tick Bombing is a calculator for timing a bomb launch against a ship in warp.
A warp has three phases:

- an exponential acceleration up to the top speed;
- a cruise at the top speed;
- an exponential deceleration down to the drop-out speed.

From the length of each phase the calculator works out two things: when to launch so the bomb detonates a chosen number of seconds before the target lands, and the target's speed and remaining distance at that moment. The desktop application (`main.py`) and the web service (`web_app.py`) hold the same calculation, line for line. The desktop application also runs a countdown to the launch, raising an "align" alert and a "launch bomb" alert on the way.

The project has four modules.

- `WarpModel` (`warp_model.dfy`) is the single copy of the calculation.
  - It holds the warp profile (`TimeInWarp`), the distance remaining (`DistanceRemaining`) and the launch plan (`Plan`).
  - Each exception Python would raise is an `Err` value: a division by zero, or `math.log` of a non-positive number.
  - `math.log` and `math.exp` have no values here. They are the two fields of a `Numerics` value, and the laws of the real logarithm and exponential are predicates. A lemma requires only the laws it needs.
- `WarpProperties` (`warp_properties.dfy`) proves the properties that need those laws:
  - the distances and signs of the phases;
  - monotonicity of the remaining distance;
  - the speed at launch and at the phase boundaries.
- `WebApp` (`web_app.dfy`) is the `/calculate` handler. It covers default fields, conversion errors, validation, and the reply with its raw countdown pair.
- `Desktop` (`desktop.dfy`) is the `TickBombingApp` class.
  - The Calculate button stores the launch timing.
  - Start and Stop change the `running`/`paused` flags.
  - The countdown thread's loop is the method `RunCountdown`, which runs over a trace of clock readings and Stop presses.
  - The order and number of the alerts are specified by the function `AlertsOf`, and lemmas state them.

## Model

| member | source | states |
|---|---|---|
| WarpModel.Min | main.py:159-160 | Python's two-argument `min` is at most both arguments and is one of them; web_app.py:15-16 use it the same way |
| WarpModel.Max | main.py:173 | Python's two-argument `max` is at least both arguments and is one of them; the countdown clamps the remaining time with it at main.py:363 |
| WarpModel.DecelConstant | main.py:159 | the deceleration constant is at most 2 and at most a third of the warp speed, equals one of the two, and has the warp speed's sign; web_app.py:15 is the same line |
| WarpModel.DropoutSpeed | main.py:160 | the drop-out speed is at most 100 m/s and at most half the sub-warp speed, equals one of the two, and has the sub-warp speed's sign; web_app.py:16 is the same line |
| WarpModel.Div | main.py:164 | float division succeeds exactly for a non-zero divisor, and the quotient times the divisor is the dividend |
| WarpModel.Log | main.py:164 | `math.log` succeeds exactly on positive arguments and then gives ln |
| WarpModel.PhaseDuration | main.py:164 | a phase lasts ln(top/target)/k; it fails with a math-domain error when the ratio is not positive, and with a division by zero for a zero target or rate |
| WarpModel.Covered | main.py:165 | the exponential law with a positive rate and speed scale covers, in any positive time, more than nothing and less than the scale over the rate; main.py:169 and main.py:202 use the same law |
| WarpModel.ExpPhase | main.py:164-169 | a phase's duration is `PhaseDuration` and its distance is the exponential law run for that duration |
| WarpModel.TopSpeedOverRate | main.py:164 | a proof step about the acceleration ratio: with the acceleration constant equal to the warp speed, the top speed in m/s over that constant is exactly one astronomical unit for any non-zero warp speed |
| WarpModel.RatioSign | main.py:168 | top speed over drop-out speed is positive exactly when the two input speeds have the same sign |
| WarpModel.WithCruise | main.py:172-176 | the times sum to the total; the cruise distance is clamped at 0 and is 0 exactly when acceleration plus deceleration distances reach the warp distance; the cruise time is that distance at top speed, or 0 when the top speed is not positive |
| WarpModel.TimeInWarp | main.py:146-178 | the breakdown raises exactly unless both speeds are non-zero with the same sign (division by zero for a zero speed, math domain otherwise); on success the phases fit together as above, the constants are the warp speed and the capped deceleration constant, and each exponential phase is its `ExpPhase`, and the top speed in m/s over the acceleration constant is one astronomical unit; web_app.py:10-34 is the same code |
| WarpModel.DistanceRemaining | main.py:180-203 | 0 when no time is left; the deceleration distance when the time left covers the whole deceleration window; otherwise the closed-form distance for the time left; it raises exactly where the window computation does, and the same exception: a division by zero for a zero drop-out speed or rate, and the math-domain error when top speed over drop-out speed is not positive; web_app.py:36-49 is the same code |
| WarpModel.Inputs.AllPositive | main.py:218 | the inputs pass validation exactly when the distance, warp speed, sub-warp speed and detonation time are all positive; web_app.py:67 is the same test |
| WarpModel.SpeedAt | main.py:240-246 | during the cruise the speed is the warp speed in m/s; with a positive acceleration constant and warp speed and an exponential that is always positive, every branch gives a positive speed; web_app.py:88-94 is the same code |
| WarpModel.Plan | main.py:222-246 | on validated inputs the profile is the breakdown of the distance in metres; launch time plus detonation time is the total time, so the launch is negative exactly when the detonation outlasts the warp; the remaining distance is `DistanceRemaining` for the detonation time; the speed is the phase law at the launch time, and it is the top speed during the cruise; web_app.py:71-94 is the same code |
| WarpProperties.ValidSpeedsSucceed | main.py:218-224 | with validated (positive) speeds the breakdown never raises |
| WarpProperties.PhaseDistance | main.py:165 | an exponential phase run for its own duration covers (top - target)/k |
| WarpProperties.AccelDistance | main.py:164-165 | whatever the speeds, the acceleration phase covers one astronomical unit less one metre |
| WarpProperties.DecelDistance | main.py:168-169 | the deceleration phase covers (top - drop-out)/kDecel |
| WarpProperties.LnSign | main.py:164 | ln is positive exactly above 1 and zero exactly at 1 |
| WarpProperties.DurationSign | main.py:168 | a phase takes positive (negative) time exactly when top/target is above (below) 1 |
| WarpProperties.PhaseTimeSigns | main.py:164-169 | acceleration always takes positive time; deceleration takes positive time exactly when the top speed exceeds the drop-out speed, and negative time exactly when it is below |
| WarpProperties.TotalTimePositive | main.py:176 | when the top speed is at least the drop-out speed, every phase time is non-negative and the total is at least the positive acceleration time |
| WarpProperties.CoveredMonotone | main.py:202 | the deceleration law covers more distance the longer it runs |
| WarpProperties.CoveredAtZero | main.py:202 | the deceleration law covers nothing in zero time |
| WarpProperties.DistanceRemainingCapped | main.py:194-203 | when the deceleration distance belongs to the same law, the remaining distance is the closed form at min(time left, window), so the fallback branch continues the closed form |
| WarpProperties.DistanceRemainingMonotone | main.py:194-203 | for positive times left, the remaining distance never decreases as the time left grows |
| WarpProperties.RemainingDistanceGrowsWithDelay | main.py:230-233 | for the same warp, a longer detonation delay leaves at least as much distance at launch |
| WarpProperties.LaunchPhase | main.py:237-246 | the launch falls in the deceleration phase exactly when the detonation delay is shorter than that phase; only then is the remaining distance the closed form, otherwise it is the whole deceleration distance |
| WarpProperties.SpeedPositive | main.py:240-246 | the speed at launch is positive |
| WarpProperties.DecayBetween | main.py:246 | partway through a deceleration, the speed lies strictly between the end speed and the top speed |
| WarpProperties.DecelBranchValue | main.py:244-246 | past the cruise, the speed law is the top speed decaying at the deceleration rate |
| WarpProperties.DecelBounds | main.py:244-246 | a proof step: bounds on the decaying top speed are bounds on the speed law past the cruise |
| WarpProperties.DecelBranchSpeed | main.py:244-246 | strictly inside the deceleration phase the speed law lies strictly between drop-out and top speed |
| WarpProperties.SpeedDuringDeceleration | main.py:240-246 | a launch inside the deceleration phase happens at a speed strictly between the drop-out speed and the top speed |
| WarpProperties.SpeedAtBoundaries | main.py:240-246 | the acceleration branch ends at the top speed times AU_IN_M (the acceleration constant is scaled by AU_IN_M); the cruise ends at the top speed; landing is at the drop-out speed |
| WarpProperties.AccelBranchGrows | main.py:240-241 | inside the acceleration phase, negative launch times included, the speed is positive and grows strictly with time; web_app.py:88-89 is the same branch |
| WarpProperties.AccelBranchAtStart | main.py:240-241 | at the start of warp the acceleration branch gives the acceleration constant times AU_IN_M, which is already the top speed in m/s |
| WarpProperties.AccelBranchAtEnd | main.py:241 | at the end of acceleration the acceleration branch gives the top speed times AU_IN_M |
| WarpProperties.DecelBranchAtEnd | main.py:246 | at landing the deceleration branch gives the drop-out speed |
| WebApp.FloatField | web_app.py:60-64 | an absent field reads as its default, a number as itself, and anything else raises |
| WebApp.ReadInputs | web_app.py:60-64 | the four inputs are read exactly when every field converts, and a conversion failure is the only error; each input is its field's number, or its default when the field is absent: 1 AU, 5 AU/s, 200 m/s and 5 s |
| WebApp.Calculate | web_app.py:55-125 | the reply reports an exception exactly when a field does not convert, and that exception is always the conversion error from `float()`; it is the "greater than zero" error exactly when every field converts and some value is not positive; otherwise it carries the launch plan, with the raw total time and unclamped launch time for the countdown; an empty request is calculated with the defaults |
| Desktop.Remaining | main.py:361-363 | the countdown shows a non-negative time, which is 0 exactly once the elapsed time reaches the launch time and otherwise adds up with the elapsed time to the launch time |
| Desktop.StartTime | main.py:356 | the start reading makes the first tick at the start show the time the countdown was started with, clamped at 0 |
| Desktop.RemainingNonIncreasing | main.py:361-363 | as the clock advances the shown time never grows |
| Desktop.AlertMoment | main.py:363-383 | an alert with a non-negative threshold is due exactly once the clock is that threshold short of the launch; a negative threshold is never met |
| Desktop.ClockSnoc | main.py:361-364 | a proof step for the countdown loop: one more tick keeps every shown time equal to the remaining time at its clock reading, and every time but the last positive |
| Desktop.ReachedSomeTick | main.py:377-383 | a threshold is reached exactly when some tick showed at most that many seconds |
| Desktop.AlertsOf | main.py:377-383 | the align and bomb alerts raised over the ticks shown number exactly one for each of the two thresholds that some tick reached |
| Desktop.AlertsSnoc | main.py:377-383 | one more tick appends to the alerts the align alert and then the bomb alert, each only if it is due for the first time |
| Desktop.CountStep | main.py:377-383 | a proof step: one tick's alerts add one to the count of each alert it raises and never add a landing alert |
| Desktop.AlertCount | main.py:377-383 | the align and bomb alerts each appear at most once, and exactly when some tick met their threshold; no landing alert is among them |
| Desktop.AlertsPrefix | main.py:377-383 | the alerts of the first k ticks begin the alerts of all ticks |
| Desktop.AlertRaisedBy | main.py:377-383 | by tick k an alert has been raised exactly when one of those ticks met its threshold, so it is raised at the first such tick |
| Desktop.AlignBeforeBomb | main.py:377-383 | when the bomb threshold is at most the align threshold (1 and 3 seconds by default), every bomb alert comes after an align alert |
| Desktop.TickBombingApp.constructor | main.py:32-35 | a new window is not running, not paused, with pause time 0 and no launch time |
| Desktop.TickBombingApp.Calculate | main.py:205-292 | an entry that does not convert, or a non-positive value, changes nothing; otherwise the launch plan is shown and its launch time, total time and detonation time are stored, and the countdown flags stay as they were |
| Desktop.TickBombingApp.StartCountdown | main.py:307-332 | before any calculation nothing changes; otherwise the countdown is marked running and not paused; a bad alert entry then stops it from starting; a started countdown runs from the launch time with the two alert thresholds |
| Desktop.TickBombingApp.StopCountdown | main.py:334-345 | running and paused are both false, and the stored timing is kept |
| Desktop.TickBombingApp.RunCountdown | main.py:347-389 | each clock reading shows the remaining time against the start reading, and ticks stop after the first zero; the alerts are `AlertsOf` the shown times, followed by the landing alert exactly when the countdown ran out without being stopped; it is still running exactly when the trace ended with time left, and a countdown that ends with time left before the trace does was stopped by the next event, a Stop press; the pause time is the last time shown; a countdown started with no time left lands at once with no other alert |

## Left out

- The Tkinter window is left out: widgets, styling, message boxes, button states, result text and `trigger_alert`'s colours. A calculation's or a start's outcome is returned as a value.
- Threads and `root.after` are left out.
  - The countdown thread is modelled as a trace of events. Each event is a clock reading or a Stop press between two checks of the loop condition.
  - A Calculate press that changes `launch_time` while the thread runs is not modelled. Neither is any other interleaving.
  - The landing's scheduled `stop_countdown` is applied at once.
- `time.time` and `time.sleep` are left out. Clock readings are the values of the trace, and the pause between ticks is not modelled.
- Desktop.TickBombingApp.RunCountdown observes a finite trace. A countdown still running when the trace ends is the start of an unfinished run.
- The progress bar value (`min(elapsed, total_time)`) and the HH:MM:SS countdown string are left out because they are presentation only.
- Flask routing and `render_template` are left out. A request body that is not a JSON object is not modelled: a `WebApp.Request` always has its four fields. Whatever exception such a body causes, the handler answers it with the `except Exception` error reply at web_app.py:124-125, the same reply as `WebApp.WebError.Raised`.
- `static/js/script.js` is not part of this model. It is browser I/O that formats the reply and counts down from its `countdown` pair.
- Floating point is left out. Arithmetic is on reals, so there is no rounding and no overflow.
- NaN is left out. `float("nan")` passes the `<= 0` validation in both front ends, and no real behaves like it.
- The values of `math.log` and `math.exp` are abstract. No concrete trip time is derived.
- f-string formatting of the results is left out.
- `paused` is never set to true anywhere in `main.py`, so the resume-from-pause branch of `start_countdown` can never be taken. `Desktop.TickBombingApp.Valid` records this, and a started countdown always runs from the launch time.
- WarpProperties.TotalTimePositive states that the phase times are non-negative only when the top speed is at least the drop-out speed. When the top speed in m/s is below the drop-out speed, the deceleration time computed by the code is negative (see `WarpProperties.PhaseTimeSigns`). That case needs a warp speed below 100 / AU_IN_M AU/s.

=== FILE: desktop.dfy ===
/**
  The desktop application's countdown: the `TickBombingApp` window stores the
  launch time of its last calculation, starts a countdown thread that ticks
  the remaining time down to zero against the clock, raises the align and
  bomb alerts once each when the remaining time reaches their thresholds,
  and announces the landing when the countdown runs out.
*/
module Desktop {
  import opened WarpModel

  /** The alerts shown in the status line, in the order they are raised. */
  datatype Alert = AlignNow | LaunchBomb | TargetLanding

  /**
    What the countdown thread observes between two checks of its loop
    condition: a reading of the clock, or the Stop button pressed on the
    window's own thread.
  */
  datatype Event = Tick(now: real) | Stop

  /** Outcome of pressing Calculate. */
  datatype CalcOutcome =
    | InvalidNumber         // "Please enter valid numbers in all fields."
    | NotPositive           // "All values must be greater than zero."
    | Shown(calculation: Calculation)

  /** Outcome of pressing Start: the arguments the countdown thread is started with. */
  datatype StartOutcome =
    | NotCalculated         // "Please calculate first before starting countdown."
    | BadAlertEntry         // an alert entry that `float()` rejects
    | Started(remaining: real, alignAlert: real, bombAlert: real)

  /** The remaining time the countdown shows at clock reading `now`. */
  function Remaining(launchTime: real, startTime: real, now: real): (r: real)
    ensures r >= 0.0
    ensures r == 0.0 <==> now - startTime >= launchTime
    ensures r > 0.0 ==> r + (now - startTime) == launchTime
  {
    Max(0.0, launchTime - (now - startTime))
  }

  /** The clock reading the thread counts from, so that `remaining` is left at its first tick. */
  function StartTime(now0: real, launchTime: real, remaining: real): (r: real)
    ensures Remaining(launchTime, r, now0) == Max(0.0, remaining)
  {
    now0 - (launchTime - remaining)
  }

  /** Whether some tick so far showed at most `threshold` seconds, tick by tick. */
  predicate Reached(shown: seq<real>, threshold: real)
    decreases |shown|
  {
    shown != [] && (Reached(shown[..|shown| - 1], threshold) || shown[|shown| - 1] <= threshold)
  }

  /**
    The align and bomb alerts raised while the countdown showed `shown`, tick
    by tick: each tick raises an alert whose threshold it meets for the first
    time, the align alert before the bomb alert.
  */
  function AlertsOf(shown: seq<real>, alignAlert: real, bombAlert: real): (alerts: seq<Alert>)
    ensures |alerts| == (if Reached(shown, alignAlert) then 1 else 0) + (if Reached(shown, bombAlert) then 1 else 0)
    decreases |shown|
  {
    if shown == [] then []
    else
      var prior := shown[..|shown| - 1];
      var r := shown[|shown| - 1];
      AlertsOf(prior, alignAlert, bombAlert)
        + (if !Reached(prior, alignAlert) && r <= alignAlert then [AlignNow] else [])
        + (if !Reached(prior, bombAlert) && r <= bombAlert then [LaunchBomb] else [])
  }

  /** The remaining time last shown, or the starting value before any tick. */
  function LastShown(remaining: real, shown: seq<real>): real {
    if shown == [] then remaining else shown[|shown| - 1]
  }

  class TickBombingApp {
    var running: bool
    var paused: bool
    var pauseTime: real
    /** Absent until a calculation has succeeded (the source tests `hasattr`). */
    var launchTime: Option<real>
    var totalTime: real
    var detonationTime: real

    /**
      Nothing in the application ever sets `paused`, and a stored launch time
      is always the total warp time less a positive detonation time.
    */
    ghost predicate Valid()
      reads this
    {
      && !paused
      && (launchTime.Some? ==> detonationTime > 0.0 && launchTime.value + detonationTime == totalTime)
    }

    constructor ()
      ensures Valid()
      ensures !running && !paused && pauseTime == 0.0 && launchTime.None?
    {
      running := false;
      paused := false;
      pauseTime := 0.0;
      launchTime := None;
      totalTime := 0.0;
      detonationTime := 0.0;
    }

    /**
      Pressing Calculate with the four entries, each `None` when `float()`
      rejects it. On success the launch timing of the calculation is stored
      for the countdown; otherwise nothing changes.
    */
    method Calculate(m: Numerics, distanceAu: Option<real>, warpSpeed: Option<real>,
                     subwarpSpeed: Option<real>, detonation: Option<real>)
      returns (outcome: CalcOutcome)
      requires Valid()
      modifies this
      ensures Valid()
      ensures outcome.InvalidNumber? <==>
        distanceAu.None? || warpSpeed.None? || subwarpSpeed.None? || detonation.None?
      ensures outcome.NotPositive? <==>
        !outcome.InvalidNumber?
        && !Inputs(distanceAu.value, warpSpeed.value, subwarpSpeed.value, detonation.value).AllPositive()
      ensures !outcome.Shown? ==> unchanged(this)
      ensures outcome.Shown? ==>
        var inputs := Inputs(distanceAu.value, warpSpeed.value, subwarpSpeed.value, detonation.value);
        && inputs.AllPositive()
        && outcome.calculation == Plan(m, inputs)
        && launchTime == Some(outcome.calculation.plan.launchTime)
        && totalTime == outcome.calculation.profile.totalTime
        && detonationTime == detonation.value
        && running == old(running) && paused == old(paused) && pauseTime == old(pauseTime)
    {
      if distanceAu.None? || warpSpeed.None? || subwarpSpeed.None? || detonation.None? {
        return InvalidNumber;
      }
      var inputs := Inputs(distanceAu.value, warpSpeed.value, subwarpSpeed.value, detonation.value);
      if !inputs.AllPositive() {
        return NotPositive;
      }
      var calculation := Plan(m, inputs);
      launchTime := Some(calculation.plan.launchTime);
      totalTime := calculation.profile.totalTime;
      detonationTime := inputs.detonationTime;
      return Shown(calculation);
    }

    /**
      Pressing Start. Before any calculation it only warns. Otherwise it marks
      the countdown running from the paused time or the launch time, and only
      then reads the two alert entries; a bad entry leaves the countdown marked
      running with no thread started.
    */
    method StartCountdown(alignEntry: Option<real>, bombEntry: Option<real>)
      returns (outcome: StartOutcome)
      requires Valid()
      modifies this
      ensures Valid()
      ensures old(launchTime).None? <==> outcome.NotCalculated?
      ensures outcome.NotCalculated? ==> unchanged(this)
      ensures outcome.BadAlertEntry? <==> old(launchTime).Some? && (alignEntry.None? || bombEntry.None?)
      ensures !outcome.NotCalculated? ==>
        running && !paused && pauseTime == old(pauseTime)
        && launchTime == old(launchTime) && totalTime == old(totalTime)
        && detonationTime == old(detonationTime)
      ensures outcome.Started? ==>
        && outcome.remaining == launchTime.value
        && outcome.alignAlert == alignEntry.value && outcome.bombAlert == bombEntry.value
    {
      if launchTime.None? {
        return NotCalculated;
      }
      var remaining;
      if paused {
        remaining := pauseTime;
      } else {
        remaining := launchTime.value;
      }
      running := true;
      paused := false;
      if alignEntry.None? || bombEntry.None? {
        return BadAlertEntry;
      }
      return Started(remaining, alignEntry.value, bombEntry.value);
    }

    /** Pressing Stop, or the end of a countdown: the countdown is no longer running. */
    method StopCountdown()
      requires Valid()
      modifies this
      ensures Valid()
      ensures !running && !paused
      ensures pauseTime == old(pauseTime) && launchTime == old(launchTime)
      ensures totalTime == old(totalTime) && detonationTime == old(detonationTime)
    {
      running := false;
      paused := false;
    }

    /**
      The countdown thread, started with the remaining time and the two alert
      thresholds, over the events it observes. While running with time left,
      each clock reading shows the remaining time, records it as the pause
      time and raises the alerts due; the Stop button ends the loop. Once the
      remaining time is zero and the countdown was not stopped, the landing is
      announced and the countdown stopped. A trace that ends while the
      countdown still runs is a prefix of an unfinished countdown.
    */
    method RunCountdown(remaining: real, alignAlert: real, bombAlert: real, now0: real, events: seq<Event>)
      returns (shown: seq<real>, alerts: seq<Alert>, landed: bool)
      requires Valid() && launchTime.Some?
      modifies this
      ensures Valid()
      ensures launchTime == old(launchTime) && totalTime == old(totalTime)
      ensures detonationTime == old(detonationTime)
      ensures |shown| <= |events|
      ensures forall j | 0 <= j < |shown| ::
        events[j].Tick?
        && shown[j] == Remaining(launchTime.value, StartTime(now0, launchTime.value, remaining), events[j].now)
      ensures shown != [] ==> old(running) && remaining > 0.0
      ensures forall j | 0 <= j < |shown| - 1 :: shown[j] > 0.0
      ensures alerts == AlertsOf(shown, alignAlert, bombAlert) + (if landed then [TargetLanding] else [])
      ensures landed <==> old(running) && LastShown(remaining, shown) <= 0.0
      ensures running <==> old(running) && LastShown(remaining, shown) > 0.0 && |shown| == |events|
      ensures old(running) && LastShown(remaining, shown) > 0.0 && |shown| < |events| ==> events[|shown|].Stop?
      ensures pauseTime == (if shown == [] then old(pauseTime) else LastShown(remaining, shown))
      ensures old(running) && remaining <= 0.0 ==> shown == [] && alerts == [TargetLanding] && !running
    {
      var launch := launchTime.value;
      var startTime := now0 - (launch - remaining);
      var remainingTime := remaining;
      var alignTriggered := false;
      var bombTriggered := false;
      shown, alerts := [], [];
      var i := 0;
      while i < |events| && running && remainingTime > 0.0
        invariant |shown| == i <= |events|
        invariant Valid() && launchTime == Some(launch)
        invariant totalTime == old(totalTime) && detonationTime == old(detonationTime)
        invariant running == old(running)
        invariant !old(running) ==> i == 0
        invariant forall j {:trigger events[j]} | 0 <= j < |shown| ::
          events[j].Tick? && shown[j] == Remaining(launch, startTime, events[j].now)
          && (j < |shown| - 1 ==> shown[j] > 0.0)
        invariant shown != [] ==> remaining > 0.0
        invariant remainingTime == LastShown(remaining, shown)
        invariant alignTriggered == Reached(shown, alignAlert)
        invariant bombTriggered == Reached(shown, bombAlert)
        invariant alerts == AlertsOf(shown, alignAlert, bombAlert)
        invariant pauseTime == (if shown == [] then old(pauseTime) else remainingTime)
        decreases |events| - i
      {
        if events[i].Stop? {
          StopCountdown();
          break;
        } else {
          var now := events[i].now;
          ghost var prior := remainingTime;
          remainingTime := Max(0.0, launch - (now - startTime));
          assert remainingTime == Remaining(launch, startTime, now);
          ClockSnoc(shown, events, launch, startTime, prior, remainingTime);
          pauseTime := remainingTime;
          var raiseAlign := !alignTriggered && remainingTime <= alignAlert;
          var raiseBomb := !bombTriggered && remainingTime <= bombAlert;
          AlertsSnoc(shown, remainingTime, alignAlert, bombAlert);
          alerts := alerts + (if raiseAlign then [AlignNow] else []) + (if raiseBomb then [LaunchBomb] else []);
          alignTriggered := alignTriggered || raiseAlign;
          bombTriggered := bombTriggered || raiseBomb;
          shown := shown + [remainingTime];
        }
        i := i + 1;
      }
      landed := remainingTime <= 0.0 && running;
      if landed {
        alerts := alerts + [TargetLanding];
        StopCountdown();
      }
    }
  }

  /**
    The shown times follow the clock readings, one more tick included, and
    every time but the last stays positive when the one before the new tick was.
  */
  lemma ClockSnoc(shown: seq<real>, events: seq<Event>, launchTime: real, startTime: real, prior: real, r: real)
    requires |shown| < |events| && events[|shown|].Tick?
    requires forall j {:trigger events[j]} | 0 <= j < |shown| ::
      events[j].Tick? && shown[j] == Remaining(launchTime, startTime, events[j].now)
      && (j < |shown| - 1 ==> shown[j] > 0.0)
    requires shown != [] ==> shown[|shown| - 1] == prior
    requires prior > 0.0
    requires r == Remaining(launchTime, startTime, events[|shown|].now)
    ensures forall j {:trigger events[j]} | 0 <= j < |shown| + 1 ::
      events[j].Tick? && (shown + [r])[j] == Remaining(launchTime, startTime, events[j].now)
      && (j < |shown| ==> (shown + [r])[j] > 0.0)
  {
    var next := shown + [r];
    forall j | 0 <= j < |shown| + 1
      ensures events[j].Tick? && next[j] == Remaining(launchTime, startTime, events[j].now)
      ensures j < |shown| ==> next[j] > 0.0
    {
      if j < |shown| {
        assert next[j] == shown[j];
        if j == |shown| - 1 {
          assert shown[j] == prior;
        }
      }
    }
  }

  /** A threshold is reached exactly when some tick showed at most that many seconds. */
  lemma {:induction false} ReachedSomeTick(shown: seq<real>, threshold: real)
    ensures Reached(shown, threshold) <==> exists j | 0 <= j < |shown| :: shown[j] <= threshold
    decreases |shown|
  {
    if shown != [] {
      var prior := shown[..|shown| - 1];
      ReachedSomeTick(prior, threshold);
      if Reached(prior, threshold) {
        var j :| 0 <= j < |prior| && prior[j] <= threshold;
        assert shown[j] == prior[j];
      }
      if exists j | 0 <= j < |shown| :: shown[j] <= threshold {
        var j :| 0 <= j < |shown| && shown[j] <= threshold;
        if j < |prior| {
          assert prior[j] == shown[j];
        }
      }
    }
  }

  /** One more tick appends the alerts that tick raises. */
  lemma AlertsSnoc(shown: seq<real>, r: real, alignAlert: real, bombAlert: real)
    ensures Reached(shown + [r], alignAlert) <==> Reached(shown, alignAlert) || r <= alignAlert
    ensures Reached(shown + [r], bombAlert) <==> Reached(shown, bombAlert) || r <= bombAlert
    ensures AlertsOf(shown + [r], alignAlert, bombAlert) ==
      AlertsOf(shown, alignAlert, bombAlert)
        + (if !Reached(shown, alignAlert) && r <= alignAlert then [AlignNow] else [])
        + (if !Reached(shown, bombAlert) && r <= bombAlert then [LaunchBomb] else [])
  {
    assert (shown + [r])[..|shown|] == shown;
  }

  /** Each of the align and bomb alerts is raised at most once, and exactly when some tick met its threshold. */
  lemma {:induction false} AlertCount(shown: seq<real>, alignAlert: real, bombAlert: real)
    ensures multiset(AlertsOf(shown, alignAlert, bombAlert))[AlignNow] == if Reached(shown, alignAlert) then 1 else 0
    ensures multiset(AlertsOf(shown, alignAlert, bombAlert))[LaunchBomb] == if Reached(shown, bombAlert) then 1 else 0
    ensures TargetLanding !in AlertsOf(shown, alignAlert, bombAlert)
    decreases |shown|
  {
    if shown != [] {
      var prior := shown[..|shown| - 1];
      var r := shown[|shown| - 1];
      var raiseAlign := !Reached(prior, alignAlert) && r <= alignAlert;
      var raiseBomb := !Reached(prior, bombAlert) && r <= bombAlert;
      AlertCount(prior, alignAlert, bombAlert);
      CountStep(AlertsOf(prior, alignAlert, bombAlert), raiseAlign, raiseBomb);
    }
  }

  /** How one tick's alerts change the counts of the stream so far. */
  lemma CountStep(before: seq<Alert>, raiseAlign: bool, raiseBomb: bool)
    ensures var s := before + (if raiseAlign then [AlignNow] else []) + (if raiseBomb then [LaunchBomb] else []);
      && multiset(s)[AlignNow] == multiset(before)[AlignNow] + (if raiseAlign then 1 else 0)
      && multiset(s)[LaunchBomb] == multiset(before)[LaunchBomb] + (if raiseBomb then 1 else 0)
      && (TargetLanding in s <==> TargetLanding in before)
  {
  }

  /** The alerts are raised as the ticks come: those of the first `k` ticks begin the whole stream. */
  lemma {:induction false} AlertsPrefix(shown: seq<real>, alignAlert: real, bombAlert: real, k: nat)
    requires k <= |shown|
    ensures AlertsOf(shown[..k], alignAlert, bombAlert) <= AlertsOf(shown, alignAlert, bombAlert)
    decreases |shown| - k
  {
    if k == |shown| {
      assert shown[..k] == shown;
    } else {
      AlertsPrefix(shown, alignAlert, bombAlert, k + 1);
      assert shown[..k + 1][..k] == shown[..k];
    }
  }

  /**
    By the `k`-th tick an alert has been raised exactly when one of those
    ticks showed at most its threshold: it is raised at the first such tick.
  */
  lemma AlertRaisedBy(shown: seq<real>, alignAlert: real, bombAlert: real, k: nat)
    requires k <= |shown|
    ensures AlignNow in AlertsOf(shown[..k], alignAlert, bombAlert) <==>
      exists j | 0 <= j < k :: shown[j] <= alignAlert
    ensures LaunchBomb in AlertsOf(shown[..k], alignAlert, bombAlert) <==>
      exists j | 0 <= j < k :: shown[j] <= bombAlert
  {
    var prefix := shown[..k];
    AlertCount(prefix, alignAlert, bombAlert);
    ReachedSomeTick(prefix, alignAlert);
    ReachedSomeTick(prefix, bombAlert);
    assert forall j | 0 <= j < k :: prefix[j] == shown[j];
  }

  /**
    With the bomb threshold no larger than the align threshold (3 and 1
    seconds by default), every bomb alert comes after an align alert.
  */
  lemma {:induction false} AlignBeforeBomb(shown: seq<real>, alignAlert: real, bombAlert: real)
    requires bombAlert <= alignAlert
    ensures var s := AlertsOf(shown, alignAlert, bombAlert);
      forall j | 0 <= j < |s| && s[j] == LaunchBomb :: AlignNow in s[..j]
    decreases |shown|
  {
    if shown != [] {
      var prior := shown[..|shown| - 1];
      var r := shown[|shown| - 1];
      var before := AlertsOf(prior, alignAlert, bombAlert);
      var s := AlertsOf(shown, alignAlert, bombAlert);
      var rest := (if !Reached(prior, alignAlert) && r <= alignAlert then [AlignNow] else [])
        + (if !Reached(prior, bombAlert) && r <= bombAlert then [LaunchBomb] else []);
      assert s == before + rest;
      AlignBeforeBomb(prior, alignAlert, bombAlert);
      AlertCount(prior, alignAlert, bombAlert);
      forall j | 0 <= j < |s| && s[j] == LaunchBomb
        ensures AlignNow in s[..j]
      {
        if j < |before| {
          assert s[j] == before[j];
          PrefixOfConcat(before, rest, j);
        } else {
          assert r <= alignAlert;
          if Reached(prior, alignAlert) {
            assert AlignNow in multiset(before);
            assert before <= s[..j];
          } else {
            assert s[|before|] == AlignNow;
          }
        }
      }
    }
  }

  /** A prefix no longer than the first part of a concatenation lies in that part. */
  lemma PrefixOfConcat(a: seq<Alert>, b: seq<Alert>, j: nat)
    requires j <= |a|
    ensures (a + b)[..j] == a[..j]
  {
  }

  /** As the clock advances the remaining time shown never grows. */
  lemma RemainingNonIncreasing(launchTime: real, startTime: real, earlier: real, later: real)
    requires earlier <= later
    ensures Remaining(launchTime, startTime, later) <= Remaining(launchTime, startTime, earlier)
  {
  }

  /**
    An alert with a non-negative threshold is due once the clock is that
    many seconds short of the launch time after the start; a negative
    threshold is never met.
  */
  lemma AlertMoment(launchTime: real, startTime: real, now: real, threshold: real)
    ensures threshold >= 0.0 ==>
      (Remaining(launchTime, startTime, now) <= threshold <==> now - startTime >= launchTime - threshold)
    ensures threshold < 0.0 ==> Remaining(launchTime, startTime, now) > threshold
  {
  }
}

=== FILE: warp_model.dfy ===
/**
  The warp-timing model of the Tick Bombing calculator.

  A warp is split into three phases: an exponential acceleration towards the
  top speed, a cruise at constant top speed, and an exponential deceleration
  down to the drop-out speed. From that breakdown the calculator derives when
  to launch a bomb so that it detonates a fixed number of seconds before the
  target lands. The desktop application and the web service carry the same
  calculation; this module is the single copy both of them use.

  Python's `math.log` and `math.exp` are not given values: they are the two
  fields of a `Numerics` value passed to every operation, and the laws of the
  real logarithm and exponential are stated as predicates that only the
  lemmas needing them require.
*/
module WarpModel {

  /** One astronomical unit, in metres. */
  const AU_IN_M: real := 149597870700.0

  datatype Option<T> = None | Some(value: T)

  /** The natural logarithm and the exponential, left abstract. */
  datatype Numerics = Numerics(ln: real -> real, exp: real -> real)

  ghost predicate ExpPositive(m: Numerics) {
    forall x :: m.exp(x) > 0.0
  }

  ghost predicate ExpIncreasing(m: Numerics) {
    forall x, y :: x < y ==> m.exp(x) < m.exp(y)
  }

  ghost predicate ExpAtZero(m: Numerics) {
    m.exp(0.0) == 1.0
  }

  /** exp undoes ln, and exp(-ln x) is the reciprocal of x. */
  ghost predicate ExpInvertsLn(m: Numerics) {
    forall x :: x > 0.0 ==> m.exp(m.ln(x)) == x && m.exp(-m.ln(x)) * x == 1.0
  }

  /** The exceptions the calculation can raise in Python. */
  datatype Fault =
    | ZeroDivision  // ZeroDivisionError from `/` on floats
    | MathDomain    // ValueError("math domain error") from math.log
    | NotANumber    // ValueError or TypeError from float() on a non-numeric value

  datatype Result<T> = Ok(value: T) | Err(fault: Fault) {
    predicate IsFailure() { Err? }
    function PropagateFailure<U>(): Result<U> requires Err? { Err(fault) }
    function Extract(): T requires Ok? { value }
  }

  /** Python's `min(a, b)`: the first argument unless the second is smaller. */
  function Min(a: real, b: real): (r: real)
    ensures r <= a && r <= b
    ensures r == a || r == b
  {
    if b < a then b else a
  }

  /** Python's `max(a, b)`: the first argument unless the second is larger. */
  function Max(a: real, b: real): (r: real)
    ensures r >= a && r >= b
    ensures r == a || r == b
  {
    if b > a then b else a
  }

  /** Float division, which raises on a zero divisor. */
  function Div(x: real, y: real): (r: Result<real>)
    ensures r.Ok? <==> y != 0.0
    ensures r.Ok? ==> r.value * y == x
  {
    if y == 0.0 then Err(ZeroDivision) else Ok(x / y)
  }

  /** `math.log`, which raises unless its argument is positive. */
  function Log(m: Numerics, x: real): (r: Result<real>)
    ensures r.Ok? <==> x > 0.0
    ensures r.Ok? ==> r.value == m.ln(x)
  {
    if x <= 0.0 then Err(MathDomain) else Ok(m.ln(x))
  }

  /** The deceleration rate constant, capped at 2. */
  function DecelConstant(maxWarpSpeed: real): (k: real)
    ensures k <= 2.0 && k <= maxWarpSpeed / 3.0
    ensures k == 2.0 || k == maxWarpSpeed / 3.0
    ensures k > 0.0 <==> maxWarpSpeed > 0.0
    ensures k < 0.0 <==> maxWarpSpeed < 0.0
  {
    Min(maxWarpSpeed / 3.0, 2.0)
  }

  /** The speed at which the target drops out of warp, capped at 100 m/s. */
  function DropoutSpeed(maxSubwarpSpeed: real): (d: real)
    ensures d <= 100.0 && d <= maxSubwarpSpeed / 2.0
    ensures d == 100.0 || d == maxSubwarpSpeed / 2.0
    ensures d > 0.0 <==> maxSubwarpSpeed > 0.0
    ensures d < 0.0 <==> maxSubwarpSpeed < 0.0
  {
    Min(maxSubwarpSpeed / 2.0, 100.0)
  }

  /** exp(k t): growth at rate k for time t. */
  function Growth(m: Numerics, k: real, t: real): real {
    m.exp(k * t)
  }

  /** exp(-k t): decay at rate k for time t. */
  function Decay(m: Numerics, k: real, t: real): real {
    m.exp(-k * t)
  }

  /**
    Distance covered in time t by the exponential law with rate k and speed
    scale v: for a positive rate and scale, and any time past zero, more
    than nothing and always short of the limit v / k.
  */
  function Covered(m: Numerics, k: real, v: real, t: real): (d: real)
    requires k != 0.0
    ensures ExpPositive(m) && ExpIncreasing(m) && ExpAtZero(m) && k > 0.0 && v > 0.0 && t > 0.0 ==>
      0.0 < d < v / k
  {
    (v / k) * (1.0 - Decay(m, k, t))
  }

  /** The duration and distance of one exponential phase. */
  datatype Phase = Phase(time: real, dist: real)

  /**
    The duration of an exponential phase with rate k between `target` and
    `maxMs`: ln(maxMs / target) / k. It raises where Python's `/` or
    `math.log` would: a zero divisor, or a ratio that is not positive.
  */
  function PhaseDuration(m: Numerics, k: real, maxMs: real, target: real): (r: Result<real>)
    ensures r.Ok? <==> target != 0.0 && maxMs / target > 0.0 && k != 0.0
    ensures r.Err? ==> r.fault == if target != 0.0 && maxMs / target <= 0.0 then MathDomain else ZeroDivision
    ensures r.Ok? ==> r.value * k == m.ln(maxMs / target)
  {
    var ratio :- Div(maxMs, target);
    var logRatio :- Log(m, ratio);
    Div(logRatio, k)
  }

  /** One exponential phase: its duration and the distance covered meanwhile. */
  function ExpPhase(m: Numerics, k: real, maxMs: real, target: real): (r: Result<Phase>)
    ensures r.Ok? <==> PhaseDuration(m, k, maxMs, target).Ok?
    ensures r.Ok? ==> r.value.time == PhaseDuration(m, k, maxMs, target).value
    ensures r.Ok? ==> r.value.dist == Covered(m, k, maxMs, r.value.time)
  {
    var time :- PhaseDuration(m, k, maxMs, target);
    Ok(Phase(time, Covered(m, k, maxMs, time)))
  }

  /** The values `calculate_time_in_warp` returns, in its own order. */
  datatype Profile = Profile(
    totalTime: real,
    accelTime: real,
    cruiseTime: real,
    decelTime: real,
    accelDist: real,
    cruiseDist: real,
    decelDist: real,
    kAccel: real,
    kDecel: real,
    maxMs: real)

  /** The top speed in m/s over the acceleration constant is one astronomical unit. */
  lemma TopSpeedOverRate(maxWarpSpeed: real)
    requires maxWarpSpeed != 0.0
    ensures (maxWarpSpeed * AU_IN_M) / maxWarpSpeed == AU_IN_M
  {
  }

  /** The top speed over the drop-out speed is positive exactly when the two input speeds share a sign. */
  lemma RatioSign(maxWarpSpeed: real, maxSubwarpSpeed: real)
    requires maxWarpSpeed != 0.0 && maxSubwarpSpeed != 0.0
    ensures (maxWarpSpeed * AU_IN_M) / DropoutSpeed(maxSubwarpSpeed) > 0.0 <==> maxWarpSpeed * maxSubwarpSpeed > 0.0
  {
    var d := DropoutSpeed(maxSubwarpSpeed);
    var q := (maxWarpSpeed * AU_IN_M) / d;
    assert q * d == maxWarpSpeed * AU_IN_M;
    if maxWarpSpeed > 0.0 {
      if maxSubwarpSpeed > 0.0 { assert q > 0.0; } else { assert q < 0.0; }
    } else {
      if maxSubwarpSpeed > 0.0 { assert q < 0.0; } else { assert q > 0.0; }
    }
  }

  /**
    How the three phases of a profile fit together over a warp of `warpDist`
    metres: the phase times add up to the total; the cruise distance is
    clamped at zero and is zero exactly for hops too short to reach top
    speed, so the three distances cover the warp or, on a short hop, the
    acceleration and deceleration distances alone; the cruise lasts its
    distance at top speed, and never a negative time.
  */
  ghost predicate PhasesFit(p: Profile, warpDist: real) {
    && p.totalTime == p.accelTime + p.cruiseTime + p.decelTime
    && p.cruiseDist >= 0.0
    && (p.cruiseDist == 0.0 <==> p.accelDist + p.decelDist >= warpDist)
    && p.accelDist + p.cruiseDist + p.decelDist == Max(warpDist, p.accelDist + p.decelDist)
    && p.cruiseTime >= 0.0
    && (p.maxMs > 0.0 ==> p.cruiseTime * p.maxMs == p.cruiseDist)
    && (p.maxMs <= 0.0 ==> p.cruiseTime == 0.0)
  }

  /** Completes the acceleration and deceleration phases with the cruise between them. */
  function WithCruise(accel: Phase, decel: Phase, warpDist: real, kAccel: real, kDecel: real, maxMs: real): (p: Profile)
    ensures PhasesFit(p, warpDist)
    ensures p.accelTime == accel.time && p.accelDist == accel.dist
    ensures p.decelTime == decel.time && p.decelDist == decel.dist
    ensures p.kAccel == kAccel && p.kDecel == kDecel && p.maxMs == maxMs
  {
    var cruiseDist := Max(0.0, warpDist - (accel.dist + decel.dist));
    var cruiseTime := if maxMs > 0.0 then cruiseDist / maxMs else 0.0;
    Profile(accel.time + cruiseTime + decel.time, accel.time, cruiseTime, decel.time,
            accel.dist, cruiseDist, decel.dist, kAccel, kDecel, maxMs)
  }

  /**
    The phase breakdown of a warp of `warpDist` metres. It fails exactly when
    a division by zero or a logarithm of a non-positive number is reached,
    which happens precisely when the two speeds are not both non-zero and of
    the same sign.
  */
  function TimeInWarp(m: Numerics, maxWarpSpeed: real, maxSubwarpSpeed: real, warpDist: real): (r: Result<Profile>)
    ensures r.Ok? <==> maxWarpSpeed * maxSubwarpSpeed > 0.0
    ensures r.Err? ==> r.fault == if maxWarpSpeed == 0.0 || maxSubwarpSpeed == 0.0 then ZeroDivision else MathDomain
    ensures r.Ok? ==> PhasesFit(r.value, warpDist)
    ensures r.Ok? ==> r.value.kAccel == maxWarpSpeed && r.value.maxMs == maxWarpSpeed * AU_IN_M
    ensures r.Ok? ==> r.value.maxMs / r.value.kAccel == AU_IN_M
    ensures r.Ok? ==> r.value.kDecel == DecelConstant(maxWarpSpeed)
    ensures r.Ok? ==> ExpPhase(m, maxWarpSpeed, r.value.maxMs, maxWarpSpeed) == Ok(Phase(r.value.accelTime, r.value.accelDist))
    ensures r.Ok? ==> ExpPhase(m, r.value.kDecel, r.value.maxMs, DropoutSpeed(maxSubwarpSpeed)) == Ok(Phase(r.value.decelTime, r.value.decelDist))
  {
    var kAccel := maxWarpSpeed;
    var kDecel := DecelConstant(maxWarpSpeed);
    var dropout := DropoutSpeed(maxSubwarpSpeed);
    var maxMs := maxWarpSpeed * AU_IN_M;
    assert kAccel != 0.0 ==> maxMs / kAccel == AU_IN_M by {
      if kAccel != 0.0 { TopSpeedOverRate(kAccel); }
    }
    assert maxWarpSpeed != 0.0 && maxSubwarpSpeed != 0.0 ==>
      (maxMs / dropout > 0.0 <==> maxWarpSpeed * maxSubwarpSpeed > 0.0) by {
      if maxWarpSpeed != 0.0 && maxSubwarpSpeed != 0.0 { RatioSign(maxWarpSpeed, maxSubwarpSpeed); }
    }

    var accel :- ExpPhase(m, kAccel, maxMs, kAccel);
    var decel :- ExpPhase(m, kDecel, maxMs, dropout);
    Ok(WithCruise(accel, decel, warpDist, kAccel, kDecel, maxMs))
  }

  /**
    How far the target still travels in its last `timeLeft` seconds, on the
    assumption that they fall inside the deceleration phase. When they reach
    back past the start of deceleration, the whole deceleration distance
    `decelDist` is returned instead.
  */
  function DistanceRemaining(m: Numerics, timeLeft: real, kDecel: real, maxMs: real, dropout: real, decelDist: real): (r: Result<real>)
    ensures timeLeft <= 0.0 ==> r == Ok(0.0)
    ensures timeLeft > 0.0 ==> r.Ok? == PhaseDuration(m, kDecel, maxMs, dropout).Ok?
    ensures timeLeft > 0.0 && r.Err? ==> r.fault == PhaseDuration(m, kDecel, maxMs, dropout).fault
    ensures timeLeft > 0.0 && r.Ok? && timeLeft >= PhaseDuration(m, kDecel, maxMs, dropout).value ==> r.value == decelDist
    ensures timeLeft > 0.0 && r.Ok? && timeLeft < PhaseDuration(m, kDecel, maxMs, dropout).value ==>
      r.value == Covered(m, kDecel, maxMs, timeLeft)
  {
    if timeLeft <= 0.0 then Ok(0.0)
    else
      var window :- PhaseDuration(m, kDecel, maxMs, dropout);
      if timeLeft >= window then Ok(decelDist)
      else Ok(Covered(m, kDecel, maxMs, timeLeft))
  }

  /** The four numbers both front ends read: AU, AU/s, m/s and seconds. */
  datatype Inputs = Inputs(distanceAu: real, warpSpeed: real, subwarpSpeed: real, detonationTime: real) {
    /** The validation both front ends apply before calculating. */
    predicate AllPositive(): (ok: bool)
      ensures ok <==> distanceAu > 0.0 && warpSpeed > 0.0 && subwarpSpeed > 0.0 && detonationTime > 0.0
    {
      !(distanceAu <= 0.0 || warpSpeed <= 0.0 || subwarpSpeed <= 0.0 || detonationTime <= 0.0)
    }
  }

  /** When to launch, the target's speed then, and the distance it has left. */
  datatype LaunchPlan = LaunchPlan(launchTime: real, currentSpeed: real, remainingDistance: real)

  datatype Calculation = Calculation(profile: Profile, plan: LaunchPlan)

  /**
    The target's speed `t` seconds into the warp, chosen by the phase `t`
    falls in. The acceleration branch scales the rate constant by the
    astronomical unit, as the calculator does.
  */
  function SpeedAt(m: Numerics, p: Profile, warpSpeed: real, t: real): (v: real)
    ensures p.accelTime < t <= p.accelTime + p.cruiseTime ==> v == warpSpeed * AU_IN_M
    ensures ExpPositive(m) && p.kAccel > 0.0 && warpSpeed > 0.0 ==> v > 0.0
  {
    if t <= p.accelTime then p.kAccel * AU_IN_M * Growth(m, p.kAccel, t)
    else if t <= p.accelTime + p.cruiseTime then warpSpeed * AU_IN_M
    else warpSpeed * AU_IN_M * Decay(m, p.kDecel, t - p.accelTime - p.cruiseTime)
  }

  /**
    The calculation both front ends run on validated inputs: the warp
    profile, then a launch `detonationTime` seconds before landing, with
    the speed and remaining distance at that instant. The launch time is
    not clamped: it is negative when the detonation outlasts the warp.
  */
  function Plan(m: Numerics, inputs: Inputs): (c: Calculation)
    requires inputs.AllPositive()
    ensures TimeInWarp(m, inputs.warpSpeed, inputs.subwarpSpeed, inputs.distanceAu * AU_IN_M) == Ok(c.profile)
    ensures c.plan.launchTime + inputs.detonationTime == c.profile.totalTime
    ensures c.plan.launchTime < 0.0 <==> inputs.detonationTime > c.profile.totalTime
    ensures DistanceRemaining(m, inputs.detonationTime, c.profile.kDecel, c.profile.maxMs,
                              DropoutSpeed(inputs.subwarpSpeed), c.profile.decelDist) == Ok(c.plan.remainingDistance)
    ensures c.plan.currentSpeed == SpeedAt(m, c.profile, inputs.warpSpeed, c.plan.launchTime)
    ensures c.profile.accelTime < c.plan.launchTime <= c.profile.accelTime + c.profile.cruiseTime ==>
      c.plan.currentSpeed == inputs.warpSpeed * AU_IN_M
  {
    assert inputs.warpSpeed * inputs.subwarpSpeed > 0.0;
    var profile := TimeInWarp(m, inputs.warpSpeed, inputs.subwarpSpeed, inputs.distanceAu * AU_IN_M).value;
    var dropout := DropoutSpeed(inputs.subwarpSpeed);
    var remaining := DistanceRemaining(m, inputs.detonationTime, profile.kDecel, profile.maxMs, dropout, profile.decelDist).value;
    var launchTime := profile.totalTime - inputs.detonationTime;
    Calculation(profile, LaunchPlan(launchTime, SpeedAt(m, profile, inputs.warpSpeed, launchTime), remaining))
  }
}

=== FILE: warp_properties.dfy ===
/**
  Properties of the warp-timing model that need the laws of the logarithm and
  the exponential. Each lemma requires only the laws its proof uses.
*/
module WarpProperties {
  import opened WarpModel

  /** With positive speeds the breakdown never raises. */
  lemma ValidSpeedsSucceed(m: Numerics, maxWarpSpeed: real, maxSubwarpSpeed: real, warpDist: real)
    requires maxWarpSpeed > 0.0 && maxSubwarpSpeed > 0.0
    ensures TimeInWarp(m, maxWarpSpeed, maxSubwarpSpeed, warpDist).Ok?
  {
    assert maxWarpSpeed * maxSubwarpSpeed > 0.0;
  }

  /** exp(-ln x) is 1 / x. */
  lemma ExpNegLn(m: Numerics, x: real)
    requires ExpInvertsLn(m) && x > 0.0
    ensures m.exp(-m.ln(x)) == 1.0 / x
  {
    assert m.exp(-m.ln(x)) * x == 1.0;
  }

  /** Decay for time t at rate k is exp(-y) when t * k is y. */
  lemma DecayOf(m: Numerics, k: real, t: real, y: real)
    requires t * k == y
    ensures Decay(m, k, t) == m.exp(-y)
  {
  }

  /** Growth for time t at rate k is exp(y) when t * k is y. */
  lemma GrowthOf(m: Numerics, k: real, t: real, y: real)
    requires t * k == y
    ensures Growth(m, k, t) == m.exp(y)
  {
  }

  /** An exponential phase ending at its own duration covers (maxMs - target) / k. */
  lemma PhaseDistance(m: Numerics, k: real, maxMs: real, target: real)
    requires ExpInvertsLn(m)
    requires PhaseDuration(m, k, maxMs, target).Ok?
    ensures Covered(m, k, maxMs, PhaseDuration(m, k, maxMs, target).value) == (maxMs - target) / k
  {
    var t := PhaseDuration(m, k, maxMs, target).value;
    var x := maxMs / target;
    DecayOf(m, k, t, m.ln(x));
    ExpNegLn(m, x);
    assert maxMs != 0.0;
    CoveredWith(m, k, maxMs, t, 1.0 / x);
    ScaledShortfall(maxMs, k, target, 1.0 / x);
  }

  /** Covered, once the value of its exponential is known. */
  lemma CoveredWith(m: Numerics, k: real, v: real, t: real, e: real)
    requires k != 0.0 && Decay(m, k, t) == e
    ensures Covered(m, k, v, t) == (v / k) * (1.0 - e)
  {
  }

  /** (v / k) * (1 - target / v) is (v - target) / k. */
  lemma ScaledShortfall(v: real, k: real, target: real, e: real)
    requires k != 0.0 && v != 0.0 && target != 0.0 && e == 1.0 / (v / target)
    ensures (v / k) * (1.0 - e) == (v - target) / k
  {
    assert e == target / v;
    assert (v / k) * (target / v) == target / k;
  }

  /**
    Whatever the warp speed, the acceleration phase covers one astronomical
    unit less one metre: its speed scale maxMs / kAccel is one astronomical unit.
  */
  lemma AccelDistance(m: Numerics, maxWarpSpeed: real, maxSubwarpSpeed: real, warpDist: real)
    requires ExpInvertsLn(m)
    requires maxWarpSpeed > 0.0 && maxSubwarpSpeed > 0.0
    ensures var p := TimeInWarp(m, maxWarpSpeed, maxSubwarpSpeed, warpDist).value;
      p.accelDist == AU_IN_M - 1.0
  {
    ValidSpeedsSucceed(m, maxWarpSpeed, maxSubwarpSpeed, warpDist);
    var p := TimeInWarp(m, maxWarpSpeed, maxSubwarpSpeed, warpDist).value;
    PhaseDistance(m, maxWarpSpeed, p.maxMs, maxWarpSpeed);
    assert p.accelDist == (p.maxMs - maxWarpSpeed) / maxWarpSpeed;
    assert p.maxMs - maxWarpSpeed == (AU_IN_M - 1.0) * maxWarpSpeed;
    ScaleCancels(AU_IN_M - 1.0, maxWarpSpeed);
  }

  /** Scaling by a non-zero number and dividing by it again gives back the scale. */
  lemma ScaleCancels(c: real, w: real)
    requires w != 0.0
    ensures (c * w) / w == c
  {
  }

  /** The deceleration phase covers (maxMs - dropout) / kDecel. */
  lemma DecelDistance(m: Numerics, maxWarpSpeed: real, maxSubwarpSpeed: real, warpDist: real)
    requires ExpInvertsLn(m)
    requires maxWarpSpeed > 0.0 && maxSubwarpSpeed > 0.0
    ensures var p := TimeInWarp(m, maxWarpSpeed, maxSubwarpSpeed, warpDist).value;
      p.decelDist == (p.maxMs - DropoutSpeed(maxSubwarpSpeed)) / p.kDecel
  {
    ValidSpeedsSucceed(m, maxWarpSpeed, maxSubwarpSpeed, warpDist);
    var p := TimeInWarp(m, maxWarpSpeed, maxSubwarpSpeed, warpDist).value;
    PhaseDistance(m, p.kDecel, p.maxMs, DropoutSpeed(maxSubwarpSpeed));
  }

  /** ln is positive exactly above 1. */
  lemma LnSign(m: Numerics, x: real)
    requires ExpIncreasing(m) && ExpAtZero(m) && ExpInvertsLn(m) && x > 0.0
    ensures m.ln(x) > 0.0 <==> x > 1.0
    ensures m.ln(x) == 0.0 <==> x == 1.0
  {
    assert m.exp(m.ln(x)) == x;
    if m.ln(x) > 0.0 {
      assert m.exp(0.0) < m.exp(m.ln(x));
    } else if m.ln(x) < 0.0 {
      assert m.exp(m.ln(x)) < m.exp(0.0);
    }
  }

  /** An exponential phase takes a positive time exactly when it spans a ratio above 1. */
  lemma DurationSign(m: Numerics, k: real, maxMs: real, target: real)
    requires ExpIncreasing(m) && ExpAtZero(m) && ExpInvertsLn(m)
    requires k > 0.0 && PhaseDuration(m, k, maxMs, target).Ok?
    ensures PhaseDuration(m, k, maxMs, target).value > 0.0 <==> maxMs / target > 1.0
    ensures PhaseDuration(m, k, maxMs, target).value < 0.0 <==> maxMs / target < 1.0
  {
    var t := PhaseDuration(m, k, maxMs, target).value;
    LnSign(m, maxMs / target);
    assert t * k == m.ln(maxMs / target);
    if t > 0.0 { assert t * k > 0.0; }
    if t < 0.0 { assert t * k < 0.0; }
    if t == 0.0 { assert t * k == 0.0; }
  }

  /** A positive ratio is above (below) 1 exactly when the numerator is above (below) the denominator. */
  lemma RatioAgainstOne(a: real, b: real)
    requires b > 0.0
    ensures a / b > 1.0 <==> a > b
    ensures a / b < 1.0 <==> a < b
  {
    assert (a / b) * b == a;
  }

  /**
    The acceleration phase always takes a positive time; the deceleration
    phase does exactly when the top speed exceeds the drop-out speed, and
    takes a negative time when it is below it.
  */
  lemma PhaseTimeSigns(m: Numerics, maxWarpSpeed: real, maxSubwarpSpeed: real, warpDist: real)
    requires ExpIncreasing(m) && ExpAtZero(m) && ExpInvertsLn(m)
    requires maxWarpSpeed > 0.0 && maxSubwarpSpeed > 0.0
    ensures var p := TimeInWarp(m, maxWarpSpeed, maxSubwarpSpeed, warpDist).value;
      && p.accelTime > 0.0
      && (p.decelTime > 0.0 <==> p.maxMs > DropoutSpeed(maxSubwarpSpeed))
      && (p.decelTime < 0.0 <==> p.maxMs < DropoutSpeed(maxSubwarpSpeed))
  {
    ValidSpeedsSucceed(m, maxWarpSpeed, maxSubwarpSpeed, warpDist);
    var p := TimeInWarp(m, maxWarpSpeed, maxSubwarpSpeed, warpDist).value;
    var d := DropoutSpeed(maxSubwarpSpeed);
    TopSpeedOverRate(maxWarpSpeed);
    DurationSign(m, maxWarpSpeed, p.maxMs, maxWarpSpeed);
    DurationSign(m, p.kDecel, p.maxMs, d);
    RatioAgainstOne(p.maxMs, d);
  }

  /**
    Unless the top speed is below the drop-out speed, every phase time is
    non-negative and the total is at least the (positive) acceleration time.
  */
  lemma TotalTimePositive(m: Numerics, maxWarpSpeed: real, maxSubwarpSpeed: real, warpDist: real)
    requires ExpIncreasing(m) && ExpAtZero(m) && ExpInvertsLn(m)
    requires maxWarpSpeed > 0.0 && maxSubwarpSpeed > 0.0
    requires maxWarpSpeed * AU_IN_M >= DropoutSpeed(maxSubwarpSpeed)
    ensures var p := TimeInWarp(m, maxWarpSpeed, maxSubwarpSpeed, warpDist).value;
      p.accelTime > 0.0 && p.cruiseTime >= 0.0 && p.decelTime >= 0.0 && p.totalTime >= p.accelTime
  {
    PhaseTimeSigns(m, maxWarpSpeed, maxSubwarpSpeed, warpDist);
  }

  /** The exponential law covers more distance the longer it runs. */
  lemma CoveredMonotone(m: Numerics, k: real, v: real, t1: real, t2: real)
    requires ExpIncreasing(m)
    requires k > 0.0 && v > 0.0 && t1 <= t2
    ensures Covered(m, k, v, t1) <= Covered(m, k, v, t2)
  {
    if t1 < t2 {
      assert -k * t2 < -k * t1;
      assert m.exp(-k * t2) < m.exp(-k * t1);
      assert v / k > 0.0;
    }
  }

  /** ... and covers nothing at time zero. */
  lemma CoveredAtZero(m: Numerics, k: real, v: real)
    requires ExpAtZero(m) && k != 0.0
    ensures Covered(m, k, v, 0.0) == 0.0
  {
    assert -k * 0.0 == 0.0;
  }

  /**
    When `decelDist` is the deceleration distance of the same law, the
    distance remaining is the closed-form distance for the remaining time
    capped at the deceleration duration: the fallback branch continues the
    closed form instead of jumping.
  */
  lemma DistanceRemainingCapped(m: Numerics, timeLeft: real, kDecel: real, maxMs: real, dropout: real)
    requires PhaseDuration(m, kDecel, maxMs, dropout).Ok? && timeLeft > 0.0
    ensures var window := PhaseDuration(m, kDecel, maxMs, dropout).value;
      DistanceRemaining(m, timeLeft, kDecel, maxMs, dropout, Covered(m, kDecel, maxMs, window))
      == Ok(Covered(m, kDecel, maxMs, Min(timeLeft, window)))
  {
  }

  /**
    For a decelerating law (positive rate and top speed), the distance
    remaining never decreases as the time left grows.
  */
  lemma DistanceRemainingMonotone(m: Numerics, t1: real, t2: real, kDecel: real, maxMs: real, dropout: real)
    requires ExpIncreasing(m)
    requires kDecel > 0.0 && maxMs > 0.0 && PhaseDuration(m, kDecel, maxMs, dropout).Ok?
    requires 0.0 < t1 <= t2
    ensures var decelDist := Covered(m, kDecel, maxMs, PhaseDuration(m, kDecel, maxMs, dropout).value);
      DistanceRemaining(m, t1, kDecel, maxMs, dropout, decelDist).value
      <= DistanceRemaining(m, t2, kDecel, maxMs, dropout, decelDist).value
  {
    var window := PhaseDuration(m, kDecel, maxMs, dropout).value;
    DistanceRemainingCapped(m, t1, kDecel, maxMs, dropout);
    DistanceRemainingCapped(m, t2, kDecel, maxMs, dropout);
    CoveredMonotone(m, kDecel, maxMs, Min(t1, window), Min(t2, window));
  }

  /**
    A longer detonation delay never leaves a shorter distance remaining at
    launch, for the same warp.
  */
  lemma RemainingDistanceGrowsWithDelay(m: Numerics, inputs: Inputs, longerDelay: real)
    requires ExpIncreasing(m)
    requires inputs.AllPositive() && longerDelay >= inputs.detonationTime
    ensures Plan(m, inputs).plan.remainingDistance
         <= Plan(m, inputs.(detonationTime := longerDelay)).plan.remainingDistance
  {
    var p := Plan(m, inputs).profile;
    var d := DropoutSpeed(inputs.subwarpSpeed);
    assert Plan(m, inputs.(detonationTime := longerDelay)).profile == p;
    assert p.kDecel > 0.0 && p.maxMs > 0.0;
    DistanceRemainingMonotone(m, inputs.detonationTime, longerDelay, p.kDecel, p.maxMs, d);
  }

  /**
    The launch instant falls in the deceleration phase exactly when the
    detonation delay is shorter than the deceleration phase; only then does
    the remaining distance come from the closed form, otherwise it is the
    whole deceleration distance.
  */
  lemma LaunchPhase(m: Numerics, inputs: Inputs)
    requires inputs.AllPositive()
    ensures var c := Plan(m, inputs);
      && (c.plan.launchTime > c.profile.accelTime + c.profile.cruiseTime <==> inputs.detonationTime < c.profile.decelTime)
      && (inputs.detonationTime < c.profile.decelTime ==>
            c.plan.remainingDistance == Covered(m, c.profile.kDecel, c.profile.maxMs, inputs.detonationTime))
      && (inputs.detonationTime >= c.profile.decelTime ==> c.plan.remainingDistance == c.profile.decelDist)
  {
    var c := Plan(m, inputs);
    assert PhaseDuration(m, c.profile.kDecel, c.profile.maxMs, DropoutSpeed(inputs.subwarpSpeed)).value == c.profile.decelTime;
  }

  /** The speed at launch is always positive. */
  lemma SpeedPositive(m: Numerics, inputs: Inputs)
    requires ExpPositive(m) && inputs.AllPositive()
    ensures Plan(m, inputs).plan.currentSpeed > 0.0
  {
    var c := Plan(m, inputs);
    var p := c.profile;
    var t := c.plan.launchTime;
    if t <= p.accelTime {
      assert Growth(m, p.kAccel, t) > 0.0;
    } else if t > p.accelTime + p.cruiseTime {
      assert Decay(m, p.kDecel, t - p.accelTime - p.cruiseTime) > 0.0;
    }
  }

  /**
    Part way through an exponential deceleration from `maxMs` that lasts
    `PhaseDuration`, the speed lies strictly between the end speed and `maxMs`.
  */
  lemma DecayBetween(m: Numerics, k: real, maxMs: real, target: real, elapsed: real)
    requires ExpIncreasing(m) && ExpAtZero(m) && ExpInvertsLn(m)
    requires k > 0.0 && maxMs > 0.0 && target > 0.0 && PhaseDuration(m, k, maxMs, target).Ok?
    requires 0.0 < elapsed < PhaseDuration(m, k, maxMs, target).value
    ensures target < maxMs * Decay(m, k, elapsed) < maxMs
  {
    var x := maxMs / target;
    var t := PhaseDuration(m, k, maxMs, target).value;
    assert t * k == m.ln(x);
    assert 0.0 < elapsed * k < t * k;
    assert -m.ln(x) < -k * elapsed < 0.0;
    assert m.exp(-m.ln(x)) < m.exp(-k * elapsed) < m.exp(0.0);
    ExpNegLn(m, x);
    assert 1.0 / x == target / maxMs;
    var e := m.exp(-k * elapsed);
    assert target / maxMs < e < 1.0;
    assert maxMs * (target / maxMs) == target;
  }

  /**
    Anywhere strictly inside the deceleration phase of a profile, the speed
    law gives a speed strictly between the drop-out speed and the top speed.
  */
  lemma DecelBranchSpeed(m: Numerics, p: Profile, warpSpeed: real, dropout: real, t: real)
    requires ExpIncreasing(m) && ExpAtZero(m) && ExpInvertsLn(m)
    requires p.kDecel > 0.0 && p.maxMs > 0.0 && dropout > 0.0 && warpSpeed * AU_IN_M == p.maxMs
    requires p.cruiseTime >= 0.0 && PhaseDuration(m, p.kDecel, p.maxMs, dropout) == Ok(p.decelTime)
    requires p.accelTime + p.cruiseTime < t < p.accelTime + p.cruiseTime + p.decelTime
    ensures dropout < SpeedAt(m, p, warpSpeed, t) < p.maxMs
  {
    DecayBetween(m, p.kDecel, p.maxMs, dropout, t - p.accelTime - p.cruiseTime);
    DecelBounds(m, p, warpSpeed, dropout, t);
  }

  /** Bounds on the decaying top speed are bounds on the speed law past the cruise. */
  lemma DecelBounds(m: Numerics, p: Profile, warpSpeed: real, lo: real, t: real)
    requires warpSpeed * AU_IN_M == p.maxMs
    requires p.cruiseTime >= 0.0 && t > p.accelTime + p.cruiseTime
    requires lo < p.maxMs * Decay(m, p.kDecel, t - p.accelTime - p.cruiseTime) < p.maxMs
    ensures lo < SpeedAt(m, p, warpSpeed, t) < p.maxMs
  {
    var speed := SpeedAt(m, p, warpSpeed, t);
    var decayed := p.maxMs * Decay(m, p.kDecel, t - p.accelTime - p.cruiseTime);
    assert speed == decayed by {
      DecelBranchValue(m, p, warpSpeed, t);
    }
  }

  /** Past the cruise, the speed law is the top speed decaying at the deceleration rate. */
  lemma DecelBranchValue(m: Numerics, p: Profile, warpSpeed: real, t: real)
    requires warpSpeed * AU_IN_M == p.maxMs
    requires p.cruiseTime >= 0.0 && t > p.accelTime + p.cruiseTime
    ensures SpeedAt(m, p, warpSpeed, t) == p.maxMs * Decay(m, p.kDecel, t - p.accelTime - p.cruiseTime)
  {
  }

  /**
    A launch inside the deceleration phase happens at a speed strictly
    between the drop-out speed and the top speed.
  */
  lemma SpeedDuringDeceleration(m: Numerics, inputs: Inputs)
    requires ExpIncreasing(m) && ExpAtZero(m) && ExpInvertsLn(m)
    requires inputs.AllPositive()
    requires inputs.detonationTime < Plan(m, inputs).profile.decelTime
    ensures var c := Plan(m, inputs);
      DropoutSpeed(inputs.subwarpSpeed) < c.plan.currentSpeed < c.profile.maxMs
  {
    var c := Plan(m, inputs);
    var p := c.profile;
    var d := DropoutSpeed(inputs.subwarpSpeed);
    LaunchPhase(m, inputs);
    assert PhaseDuration(m, p.kDecel, p.maxMs, d) == Ok(p.decelTime);
    DecelBranchSpeed(m, p, inputs.warpSpeed, d, c.plan.launchTime);
  }

  /**
    The speed law at the phase boundaries. At the end of acceleration the
    acceleration branch gives the top speed times AU_IN_M, since the rate
    constant is scaled by the astronomical unit; it then drops to the top
    speed for the cruise, and reaches the drop-out speed at landing.
  */
  lemma SpeedAtBoundaries(m: Numerics, inputs: Inputs)
    requires ExpInvertsLn(m)
    requires inputs.AllPositive()
    ensures var p := Plan(m, inputs).profile;
      && SpeedAt(m, p, inputs.warpSpeed, p.accelTime) == p.maxMs * AU_IN_M
      && (p.cruiseTime > 0.0 ==> SpeedAt(m, p, inputs.warpSpeed, p.accelTime + p.cruiseTime) == p.maxMs)
      && (p.decelTime > 0.0 ==> SpeedAt(m, p, inputs.warpSpeed, p.totalTime) == DropoutSpeed(inputs.subwarpSpeed))
  {
    var p := Plan(m, inputs).profile;
    var w := inputs.warpSpeed;
    var d := DropoutSpeed(inputs.subwarpSpeed);
    TopSpeedOverRate(w);
    assert PhaseDuration(m, w, p.maxMs, w) == Ok(p.accelTime);
    AccelBranchAtEnd(m, p, w);
    if p.decelTime > 0.0 {
      assert PhaseDuration(m, p.kDecel, p.maxMs, d) == Ok(p.decelTime);
      DecelBranchAtEnd(m, p, w, d);
    }
  }

  /** At the end of acceleration the acceleration branch gives kAccel * AU_IN_M * AU_IN_M. */
  lemma AccelBranchAtEnd(m: Numerics, p: Profile, warpSpeed: real)
    requires ExpInvertsLn(m)
    requires p.kAccel == warpSpeed && p.maxMs == warpSpeed * AU_IN_M && warpSpeed != 0.0
    requires PhaseDuration(m, warpSpeed, p.maxMs, warpSpeed) == Ok(p.accelTime)
    requires p.maxMs / warpSpeed == AU_IN_M
    ensures SpeedAt(m, p, warpSpeed, p.accelTime) == p.maxMs * AU_IN_M
  {
    GrowthOf(m, p.kAccel, p.accelTime, m.ln(AU_IN_M));
  }

  /**
    Through the acceleration phase the speed law grows strictly with time,
    and stays positive.
  */
  lemma AccelBranchGrows(m: Numerics, p: Profile, warpSpeed: real, t1: real, t2: real)
    requires ExpIncreasing(m) && ExpPositive(m)
    requires p.kAccel > 0.0 && t1 < t2 <= p.accelTime
    ensures 0.0 < SpeedAt(m, p, warpSpeed, t1) < SpeedAt(m, p, warpSpeed, t2)
  {
    assert p.kAccel * t1 < p.kAccel * t2;
    var g1, g2 := Growth(m, p.kAccel, t1), Growth(m, p.kAccel, t2);
    assert 0.0 < g1 < g2;
    var c := p.kAccel * AU_IN_M;
    assert c > 0.0;
    assert 0.0 < c * g1 < c * g2;
  }

  /**
    The acceleration branch at the start of warp: the acceleration constant
    scaled by the astronomical unit, which is already the top speed in m/s.
  */
  lemma AccelBranchAtStart(m: Numerics, p: Profile, warpSpeed: real)
    requires ExpAtZero(m) && p.accelTime >= 0.0
    ensures SpeedAt(m, p, warpSpeed, 0.0) == p.kAccel * AU_IN_M
  {
    assert p.kAccel * 0.0 == 0.0;
  }

  /** At landing the deceleration branch gives the drop-out speed. */
  lemma DecelBranchAtEnd(m: Numerics, p: Profile, warpSpeed: real, dropout: real)
    requires ExpInvertsLn(m)
    requires p.maxMs == warpSpeed * AU_IN_M && p.maxMs > 0.0 && dropout > 0.0 && p.kDecel != 0.0
    requires p.totalTime == p.accelTime + p.cruiseTime + p.decelTime
    requires p.cruiseTime >= 0.0 && p.decelTime > 0.0
    requires PhaseDuration(m, p.kDecel, p.maxMs, dropout) == Ok(p.decelTime)
    ensures SpeedAt(m, p, warpSpeed, p.totalTime) == dropout
  {
    var x := p.maxMs / dropout;
    DecelBranchValue(m, p, warpSpeed, p.totalTime);
    assert p.totalTime - p.accelTime - p.cruiseTime == p.decelTime;
    DecayOf(m, p.kDecel, p.decelTime, m.ln(x));
    ExpNegLn(m, x);
    assert p.maxMs * (1.0 / x) == dropout;
  }
}

=== FILE: web_app.dfy ===
/**
  The `/calculate` handler of the web service: it reads the four numbers from
  the JSON request (each with a default when absent), rejects any that is not
  positive, runs the warp calculation and replies with the breakdown and the
  raw total and launch times for the browser's countdown, or with an error.
*/
module WebApp {
  import opened WarpModel

  /** A request field as `float()` sees it: missing, a number, or something it cannot convert. */
  datatype Field = Absent | Number(x: real) | NonNumeric

  datatype Request = Request(distance: Field, warpSpeed: Field, subwarpSpeed: Field, detonationTime: Field)

  /** `float(data.get(name, default))`: the default when absent, and a fault when not numeric. */
  function FloatField(f: Field, default: real): (r: Result<real>)
    ensures r.Ok? <==> !f.NonNumeric?
    ensures f.Absent? ==> r == Ok(default)
    ensures f.Number? ==> r == Ok(f.x)
  {
    match f
    case Absent => Ok(default)
    case Number(x) => Ok(x)
    case NonNumeric => Err(NotANumber)
  }

  predicate Readable(req: Request) {
    !req.distance.NonNumeric? && !req.warpSpeed.NonNumeric?
    && !req.subwarpSpeed.NonNumeric? && !req.detonationTime.NonNumeric?
  }

  /** The four inputs, read in order with the defaults 1 AU, 5 AU/s, 200 m/s and 5 s. */
  function ReadInputs(req: Request): (r: Result<Inputs>)
    ensures r.Ok? <==> Readable(req)
    ensures r.Err? ==> r.fault == NotANumber
    ensures r.Ok? ==> r.value.distanceAu == (if req.distance.Absent? then 1.0 else req.distance.x)
    ensures r.Ok? ==> r.value.warpSpeed == (if req.warpSpeed.Absent? then 5.0 else req.warpSpeed.x)
    ensures r.Ok? ==> r.value.subwarpSpeed == (if req.subwarpSpeed.Absent? then 200.0 else req.subwarpSpeed.x)
    ensures r.Ok? ==> r.value.detonationTime == (if req.detonationTime.Absent? then 5.0 else req.detonationTime.x)
  {
    var distanceAu :- FloatField(req.distance, 1.0);
    var warpSpeed :- FloatField(req.warpSpeed, 5.0);
    var subwarpSpeed :- FloatField(req.subwarpSpeed, 200.0);
    var detonationTime :- FloatField(req.detonationTime, 5.0);
    Ok(Inputs(distanceAu, warpSpeed, subwarpSpeed, detonationTime))
  }

  datatype WebError =
    | NotPositive       // "All values must be greater than zero."
    | Raised(fault: Fault)  // any exception, reported by its message

  /**
    The JSON reply: an error, or the calculation together with the raw
    `countdown` pair the browser counts down from.
  */
  datatype Reply =
    | ErrorReply(error: WebError)
    | Results(calculation: Calculation, countdownTotal: real, countdownLaunch: real)

  /**
    The handler. An exception is raised, and reported, exactly when a field
    cannot be converted; a non-positive value is rejected before anything is
    computed; otherwise the reply carries the calculation, with the launch
    time passed through unclamped, so negative when the detonation outlasts
    the warp.
  */
  function Calculate(m: Numerics, req: Request): (r: Reply)
    ensures r.ErrorReply? && r.error.Raised? <==> !Readable(req)
    ensures r.ErrorReply? && r.error.Raised? ==> r.error.fault == NotANumber
    ensures r == ErrorReply(NotPositive) <==> Readable(req) && !ReadInputs(req).value.AllPositive()
    ensures r.Results? ==> Readable(req) && ReadInputs(req).value.AllPositive()
                           && r.calculation == Plan(m, ReadInputs(req).value)
    ensures r.Results? ==> r.countdownTotal == r.calculation.profile.totalTime
                           && r.countdownLaunch == r.calculation.plan.launchTime
                           && r.countdownLaunch == r.countdownTotal - ReadInputs(req).value.detonationTime
    ensures req == Request(Absent, Absent, Absent, Absent) ==>
      r.Results? && r.calculation == Plan(m, Inputs(1.0, 5.0, 200.0, 5.0))
  {
    match ReadInputs(req)
    case Err(fault) => ErrorReply(Raised(fault))
    case Ok(inputs) =>
      if !inputs.AllPositive() then ErrorReply(NotPositive)
      else
        var calculation := Plan(m, inputs);
        Results(calculation, calculation.profile.totalTime, calculation.plan.launchTime)
  }
}
